=== FILE: README.md ===
# esp-cam-webserver: a Dafny model of its sequential core

The firmware runs on an ESP32 camera board. It brings up Wi-Fi and serves
three HTTP routes:

- `/time` gives the Unix time, read from a time service.
- `/sdcard?<path>` lists a directory or returns a file from the SD card.
- `/camera` lights the flash, takes a JPEG and returns it.

This project models the four pieces of sequential logic inside that
firmware. Each is a set of pure functions over values. The properties the
firmware promises are proved about them.

- **Flash guard and `/camera`** (`flash.dfy`, module `Flash`). `Flash` is a
  guard over an optional output line. `on` drives the line high, then waits
  5 ms. `off` drives it low. Both do nothing without a pin. Dropping the
  guard calls `off`. The `/camera` handler is modelled as the list of
  effects it produces: `SetHigh`, `Delay(5)`, `Capture`, `SetLow`,
  `Headers`, `Body`, in the order they happen. The inputs are the flash
  lock outcome, the line's prior level, the capture outcome and how far the
  transport got. `Replay` gives the level a line ends at after a list of
  effects. It is the reference the guard's own state is checked against.
- **Wi-Fi channel selection and bring-up** (`wifi.dfy`, module `Wifi`).
  The client channel comes from the first scan entry with the configured
  SSID. The access point uses that channel, or channel 1 when there was no
  match. Each of the two 20-second waits is given the values its condition
  took at the polls in its window. Readiness is "connected and address not
  0.0.0.0".
- **The `unixtime` scanner** (`unixtime.dfy`, module `Unixtime`). The scan
  sees at most the first 1024 bytes of the response, decoded as UTF-8. The
  text is split on `,` and each segment on `:`. A segment yields a value
  when its key is exactly `"unixtime"` (quotes included), it has exactly one
  `:`, and its value parses as a u32. The first such segment wins.
- **The `/sdcard` handler** (`sdcard.dfy`, module `Sdcard`). The path is the
  piece of the URI between the first and the second `?`. The card is given
  as the directories and files that open at each path, plus the lock
  outcome. The response is modelled as the list of `write_all` calls the
  handler makes.

Supporting modules model the Rust library behaviour the core relies on:

- `Split` is `str::split` with a one-character pattern. `Join` is its
  inverse.
- `Decimal` is `format!("{}")` for integers and `u32::from_str`. The parser
  accepts one leading `+` and leading zeros. It rejects `-`, empty text, a
  lone `+`, and overflow.
- `Utf8` is `core::str::from_utf8` and `str::as_bytes`. It follows Table
  3-7 of the Unicode Standard (section 3.9) and RFC 3629.
- `Seqs`, `Ints` and `Wrappers` hold small shared definitions.

Some behaviours of the code are easy to miss:

- **Path.** The path is only the text between the first and second `?`
  (`uri.split("?").nth(1)`). Anything after a second `?` is dropped
  (`Sdcard.LemmaQueryPathBetween`).
- **File read.** The handler tries to open the path as a file even when it
  opened as a directory. A path that opens both ways gets the listing
  followed by the file bytes (`Sdcard.LemmaDirectoryThenFile`).
- **Field position.** The scanner compares the key segment exactly. So
  `{"unixtime":1700000000,...}` yields no timestamp: the key segment is
  `{"unixtime"`, and the final segment `...}` has no `:`
  (`Unixtime.LemmaObjectOpeningWithField`). A field that closes the object
  is missed too, because its value keeps the `}`
  (`Unixtime.LemmaTrailingFieldMissed`). A field between two others is
  found (`Unixtime.LemmaFieldAmongOthers`).
- **Two low-sets.** On the success path of `/camera` the line is set low
  twice. The first is the explicit `flash.off()`, the second is `off`
  called once by the drop (`Flash.LemmaCameraSuccessTrace`).

## Model

| member | source | states |
|---|---|---|
| `Flash.On` | src/lib.rs:28-33 | With a pin, the line ends high, and the effects gain a high-set followed by a 5 ms settle delay; without a pin, nothing changes |
| `Flash.Off` | src/lib.rs:34-38 | With a pin, the line ends low after one low-set; without a pin, nothing changes |
| `Flash.Drop` | src/lib.rs:40-44 | Dropping a guard leaves its line low whatever state it was in; without a pin it changes nothing |
| `Flash.LemmaOffIdempotent` | src/lib.rs:34-38 | Calling `off` twice leaves the line at the same level as calling it once |
| `Flash.LemmaDropAfterOn` | src/lib.rs:22-44 | `on` with no matching `off`, followed by a drop, still leaves the line low (high, settle, low) |
| `Flash.LemmaGuardAgreesWithTrace` | src/lib.rs:28-44 | `on`, `off` and drop keep the guard's level equal to the level obtained by replaying its effects |
| `Flash.Camera` | src/lib.rs:138-162 | With the lock and a pin, the line ends low on every exit path. A lock failure returns an error and touches nothing. Without a pin there are no line effects. A failed capture returns an error with no headers or body. Success holds exactly when locked, captured and delivered, and then the JPEG headers and the captured bytes were sent |
| `Flash.LemmaCameraTrace` | src/lib.rs:139-161 | With a pin, each combination of capture outcome and transport outcome produces its stated sequence of effects |
| `Flash.LemmaCameraSuccessTrace` | src/lib.rs:143-159 | A successful snapshot with a pin produces exactly: high, 5 ms settle, capture, low, headers, body, low |
| `Flash.LemmaCameraOrdering` | src/lib.rs:143-161 | On every path once the flash lock is held and with a pin, the capture directly follows the high-set and the settle delay. Headers and body go out only while the line is low, and the line ends low |
| `Flash.LemmaContentLength` | src/lib.rs:152-155 | The Content-Length header, read back with the u32 parser, is the number of body bytes |
| `Wifi.FindNetwork` | src/lib.rs:56 | The result, if any, is a scan entry with the configured SSID; it is absent only when no entry has that SSID |
| `Wifi.ClientChannel` | src/lib.rs:56-70 | The client channel is absent exactly when no scan entry has the configured SSID |
| `Wifi.Configure` | src/lib.rs:72-84 | The client configuration has the configured SSID and password, and the client channel is the one selected from the scan. The access point is `aptest` on the client's channel, or on channel 1 exactly when the SSID was not seen |
| `Wifi.LemmaFirstMatch` | src/lib.rs:56-63 | A selected channel is that of some entry with the SSID such that no earlier entry has the SSID |
| `Wifi.LemmaFirstMatchDecides` | src/lib.rs:56-63 | Conversely, the first entry with the SSID decides the channel |
| `Wifi.LemmaConfigureFirstMatch` | src/lib.rs:56-81 | When entry i is the first with the configured SSID, both the client and the access point use entry i's channel |
| `Wifi.Wait` | src/lib.rs:90-92 | A bounded wait succeeds exactly when some poll in the window saw its condition |
| `Wifi.Bringup` | src/lib.rs:86-114 | Start timeout exactly when no start poll saw the radio started. Connect timeout exactly when the radio started but no station poll saw "connected and address not 0.0.0.0". Address-read failure exactly when both waits passed but the final `get_ip_info` failed. On success the configuration carries the selected channel |
| `Split.Split` | src/lib.rs:182-183 | n separators give n + 1 pieces, and no piece holds the separator |
| `Split.LemmaJoinSplit` | src/lib.rs:182-183 | Joining the pieces with the separator gives back the input |
| `Split.LemmaSplitJoin` | src/sdmmc.rs:21 | Splitting separator-free pieces joined by the separator gives back the pieces |
| `Split.LemmaSplitAppend` | src/lib.rs:182 | The pieces of `a`, separator, `b` are the pieces of `a` followed by those of `b` |
| `Decimal.Format` | src/lib.rs:152 | The rendering is a non-empty digit string with no leading zero except for 0 itself |
| `Decimal.ParseU32` | src/lib.rs:198 | A parse succeeds exactly when the text after one optional `+` is a non-empty run of ASCII digits whose value fits in 32 bits, and the result is that value. Text starting with `-` never parses |
| `Decimal.LemmaParseFormat` | src/lib.rs:198 | Parsing the rendering of any u32 gives the number back |
| `Decimal.LemmaFormatParse` | src/lib.rs:198 | For canonical digit text that parses, rendering the parsed value gives the text back |
| `Decimal.LemmaParseLeadingZeros` | src/lib.rs:198 | Leading zeros are accepted and ignored: zeros in front of text that does not start with `+` parse as the text alone |
| `Decimal.LemmaParseSign` | src/lib.rs:198 | One leading `+` is ignored; `++` and a leading `-` are rejected |
| `Decimal.LemmaParseOverflow` | src/lib.rs:198 | The rendering of any number of 2^32 or more is rejected |
| `Utf8.DecodeFirst` | src/lib.rs:180 | A well-formed leading sequence is 1 to 4 bytes long and lies within the input |
| `Utf8.LemmaDecodeEncode` | src/lib.rs:180 | Decoding the UTF-8 bytes of any text gives the text back |
| `Utf8.LemmaEncodeDecode` | src/lib.rs:180 | Accepted bytes are exactly the encoding of the decoded text |
| `Utf8.LemmaNoTrailingLead` | src/lib.rs:178-180 | Bytes that end on a lead byte, such as a character cut short, are rejected |
| `Utf8.LemmaCutCharRejected` | src/lib.rs:180 | Every proper, non-empty prefix of a multi-byte character's encoding is rejected |
| `Utf8.LemmaDecodePrefixed` | src/lib.rs:180 | Well-formed text in front of rejected bytes does not make them accepted |
| `Unixtime.LemmaScanSegmentsFirst` | src/lib.rs:182-203 | No result exactly when no segment yields a value. Otherwise the result is the value of some segment such that every earlier segment yields nothing |
| `Unixtime.LemmaFieldValueShape` | src/lib.rs:183-201 | A segment yields a value only if it is exactly `"unixtime"`, one `:`, and a `:`-free value that parses to it |
| `Unixtime.LemmaFieldValueOfShape` | src/lib.rs:183-202 | Conversely, `"unixtime"`, `:` and a `:`-free value yield whatever the u32 parser gives for the value |
| `Unixtime.LemmaExtraFields` | src/lib.rs:182-203 | A value found before a `,` is kept whatever follows. If nothing is found before a `,`, the scan continues after it |
| `Unixtime.LemmaFieldFound` | src/lib.rs:182-202 | The segment `"unixtime":t` is found with value t, for every u32 t |
| `Unixtime.LemmaFieldAmongOthers` | src/lib.rs:182-203 | A `"unixtime":t` field between other fields is found when nothing before it yields a value |
| `Unixtime.LemmaLeadingFieldMissed` | src/lib.rs:182-189 | A field that opens the object (`{"unixtime":t,`) is skipped, so the result is that of the rest |
| `Unixtime.LemmaTrailingFieldMissed` | src/lib.rs:191-201 | A field that closes the object (`"unixtime":t}`) yields nothing |
| `Unixtime.LemmaObjectOpeningWithField` | src/lib.rs:182-208 | `{"unixtime":1700000000,...}` yields no timestamp |
| `Unixtime.Window` | src/lib.rs:175-180 | The scanned bytes are a prefix of the response: the whole response when it fits in 1024 bytes, otherwise exactly its first 1024 bytes |
| `Unixtime.GetUnixtime` | src/lib.rs:175-208 | The UTF-8 error is returned exactly when the first 1024 bytes are not well-formed UTF-8 |
| `Unixtime.LemmaOnlyWindowMatters` | src/lib.rs:175-180 | Bytes after the first 1024 do not change the result |
| `Unixtime.LemmaGetUnixtimeOfText` | src/lib.rs:178-203 | A text that fits the buffer gives the scan's value, or the not-found error when the scan finds nothing |
| `Unixtime.LemmaLastByteLead` | src/lib.rs:175-180 | A response of at least 1024 bytes whose 1024th byte is a lead byte makes the read fail with the UTF-8 error |
| `Unixtime.LemmaCutCharacterRejected` | src/lib.rs:175-180 | Well-formed text followed by a character that the 1024-byte limit cuts, after any of its bytes, makes the read fail with the UTF-8 error |
| `Unixtime.TimeBody` | src/lib.rs:127-131 | `/time` succeeds exactly when the lookup succeeds and the transport takes the response head and body. A failed lookup is returned as it is; a refused send is a send error. The body is the canonical decimal text of the timestamp, in UTF-8 |
| `Unixtime.LemmaTimeBodyText` | src/lib.rs:128-130 | A successful `/time` body decodes to exactly the `format!` rendering of the timestamp |
| `Sdcard.QueryPath` | src/sdmmc.rs:21 | The path never holds `?` and is empty when the URI has no `?` |
| `Sdcard.LemmaQueryPathBetween` | src/sdmmc.rs:21 | The path is the text between the first and second `?`; the rest is dropped |
| `Sdcard.LemmaQueryPathToEnd` | src/sdmmc.rs:21 | With a single `?`, the path is everything after it |
| `Sdcard.Names` | src/sdmmc.rs:33-38 | A name is listed exactly when the directory holds a decodable entry with that name |
| `Sdcard.LemmaNamesAppend` | src/sdmmc.rs:33-38 | Listing keeps directory order and duplicates: the names of two runs of entries are those of the first, then those of the second |
| `Sdcard.LemmaNamesSingle` | src/sdmmc.rs:34-36 | A decodable entry contributes its name, an undecodable one nothing |
| `Sdcard.ListingWrites` | src/sdmmc.rs:33-38 | The listing writes one line per decodable entry, in listing order, and nothing else |
| `Sdcard.Handle` | src/sdmmc.rs:16-58 | Status is always 200. A lock failure writes exactly the access notice; when the lock is held the access notice is never written. The not-found notice is written exactly when the lock held and the path opened neither as a directory nor as a file. An opened directory's listing comes first, and an opened file's bytes come last |
| `Sdcard.LemmaListingBody` | src/sdmmc.rs:33-38 | The listing bytes are the UTF-8 encoding of each decodable name followed by a newline |
| `Sdcard.LemmaLinesSplit` | src/sdmmc.rs:35 | Split on newlines, the listing text gives back the names in order, then one empty piece (for names without newlines) |
| `Sdcard.LemmaNothingToList` | src/sdmmc.rs:27-39 | An empty directory, or one whose names all fail to decode, lists nothing |
| `Sdcard.LemmaLockFailedBody` | src/sdmmc.rs:53-55 | When the lock fails, the body is exactly `Couldn't access sdcard\n` |
| `Sdcard.LemmaDirectoryThenFile` | src/sdmmc.rs:26-49 | A path that opens both ways gets the listing followed by the file bytes |
| `Sdcard.LemmaDirectoryOnly` | src/sdmmc.rs:26-52 | A path that opens only as a directory gets the listing alone |
| `Sdcard.LemmaFileOnly` | src/sdmmc.rs:26-52 | A path that opens only as a file gets its bytes alone |
| `Sdcard.LemmaNeitherOpened` | src/sdmmc.rs:50-52 | A path that opens neither way gets exactly `File/dir not found\n` |
| `Sdcard.LemmaTwoEntryDirectory` | src/sdmmc.rs:21-39 | A directory with entries `a` and `b`, such as `/images` with `a.jpg` and `b.jpg`, answers `a\nb\n` |

## Left out

- src/main.rs (pin assignment, camera set-up, LED blink loop) is start-up
  code only. Its call `http_server(Some(flash))` does not match the
  two-argument signature of `http_server`.
- The fallible radio calls `EspWifi::new`, `scan`, `set_configuration`,
  `start` and `connect` are not modelled, nor are their `?` errors. The
  waits' clock and event loop are replaced by the polled values.
  `Wifi.Bringup` starts after the scan.
- `Wifi.Bringup`: the `.unwrap()` calls inside the two poll closures
  (`is_started`, `is_connected`, `get_ip_info`) panic on a driver error, and
  `WifiWait::new` and `EspNetifWait::new` can fail with `?`. A poll is
  modelled as a plain boolean or station state, so these panics and
  constructor failures are not represented; they are driver errors, not
  bring-up logic.
- The `static FLASH` mutex and the card's `Arc<Mutex<Sdmmc>>` are
  concurrency. Each lock outcome is a boolean input, and poisoning is just
  a failed lock.
- The time-service HTTP client is not modelled: the connection,
  `try_read_full`, read errors and the final drain loop. The model takes
  the response bytes as input.
- Driver internals are not modelled. This covers the camera's `Pic`
  capture, the `Sdmmc` directory and file code, `EspHttpServer` route
  registration, and the real FreeRTOS delay (kept only as a `Delay` event).
  Logging and `println!` are not modelled either.
- Pin driver failures are ignored by the firmware. Every high or low set is
  modelled as taking effect.
- `Sdcard.Handle`: the `?` on `initiate_response` and on each `write_all`
  is not modelled. Every write is assumed to succeed, because transport
  failures are outside the handler's logic.
- `Flash.Camera`: when the body write fails, the bytes that reached the
  transport before the failure are unknown, so no `Body` event is
  recorded.
- The capture's width and height are only logged, so they appear in
  `Picture` but nothing depends on them.

=== FILE: decimal.dfy ===
/** Decimal text: Rust's `format!("{}", n)` for an unsigned integer, and
    `str::parse::<u32>()` (core's `u32::from_str`). The parser accepts one
    optional leading `+`, any number of leading zeros, and nothing else but
    ASCII digits; it rejects the empty text, a lone `+`, a `-`, and values
    that do not fit in 32 bits. */
module Decimal {
  import opened Wrappers
  import opened Ints

  predicate IsDigit(c: char)
  {
    '0' <= c <= '9'
  }

  predicate AllDigits(s: string)
  {
    forall i :: 0 <= i < |s| ==> IsDigit(s[i])
  }

  function DigitChar(d: nat): (c: char)
    requires d < 10
    ensures IsDigit(c) && c as int - '0' as int == d
  {
    ('0' as int + d) as char
  }

  /** The value of a run of digits, most significant first. */
  function DigitsValue(s: string): nat
    requires AllDigits(s)
  {
    if s == [] then 0
    else DigitsValue(s[..|s| - 1]) * 10 + (s[|s| - 1] as int - '0' as int)
  }

  /** `format!("{}", n)`: no sign, no leading zero, "0" for zero. */
  function Format(n: nat): (s: string)
    ensures |s| > 0 && AllDigits(s)
    ensures s[0] == '0' ==> n == 0
    ensures Canonical(s)
  {
    if n < 10 then [DigitChar(n)] else Format(n / 10) + [DigitChar(n % 10)]
  }

  /** The canonical decimal shape `Format` produces. */
  predicate Canonical(s: string)
  {
    |s| > 0 && AllDigits(s) && (s[0] == '0' ==> |s| == 1)
  }

  /** The digits `u32::from_str` reads: the text after one optional `+`. */
  function Unsigned(s: string): string
  {
    if |s| > 0 && s[0] == '+' then s[1..] else s
  }

  /** `u32::from_str`. */
  function ParseU32(s: string): (r: Option<u32>)
    ensures r.Some? ==> |s| > 0 && s[0] != '-'
    ensures r.Some? <==> |Unsigned(s)| > 0 && AllDigits(Unsigned(s)) && DigitsValue(Unsigned(s)) < U32_LIMIT
    ensures r.Some? ==> r.value == DigitsValue(Unsigned(s))
  {
    if |s| == 0 then None
    else
      var digits := if s[0] == '+' then s[1..] else s;
      if |digits| == 0 || !AllDigits(digits) then None
      else
        var v := DigitsValue(digits);
        if v < U32_LIMIT then Some(v) else None
  }

  lemma {:induction false} LemmaFormatValue(n: nat)
    ensures DigitsValue(Format(n)) == n
  {
    if n >= 10 {
      var s := Format(n);
      LemmaFormatValue(n / 10);
      assert s[..|s| - 1] == Format(n / 10);
    }
  }

  /** Rendering then parsing gives the number back, for every u32. */
  lemma LemmaParseFormat(n: nat)
    requires n < U32_LIMIT
    ensures ParseU32(Format(n)) == Some(n)
  {
    LemmaFormatValue(n);
  }

  lemma {:induction false} LemmaDigitsValueUnique(s: string, t: string)
    requires |s| == |t| && AllDigits(s) && AllDigits(t)
    requires DigitsValue(s) == DigitsValue(t)
    ensures s == t
  {
    if s != [] {
      var n := |s| - 1;
      LemmaDigitsValueUnique(s[..n], t[..n]);
      assert s == s[..n] + [s[n]];
      assert t == t[..n] + [t[n]];
    }
  }

  /** A canonical numeral is exactly as long as the rendering of its value. */
  lemma {:induction false} LemmaCanonicalLength(s: string)
    requires Canonical(s)
    ensures |Format(DigitsValue(s))| == |s|
    decreases |s|
  {
    var v := DigitsValue(s);
    if |s| > 1 {
      var p := s[..|s| - 1];
      assert p[0] == s[0];
      LemmaCanonicalLength(p);
      assert DigitsValue(p) > 0 by {
        LemmaPositive(p);
      }
      assert v / 10 == DigitsValue(p);
    } else {
      assert s[..0] == [];
    }
  }

  lemma {:induction false} LemmaPositive(s: string)
    requires |s| > 0 && AllDigits(s) && s[0] != '0'
    ensures DigitsValue(s) > 0
    decreases |s|
  {
    if |s| > 1 {
      var p := s[..|s| - 1];
      assert p[0] == s[0];
      LemmaPositive(p);
    }
  }

  /** Parsing then rendering gives back a canonical numeral: the parser and
      the formatter agree on the shape `Format` produces. */
  lemma LemmaFormatParse(s: string)
    requires Canonical(s)
    requires ParseU32(s).Some?
    ensures Format(ParseU32(s).value) == s
  {
    var v := DigitsValue(s);
    LemmaCanonicalLength(s);
    LemmaFormatValue(v);
    LemmaDigitsValueUnique(Format(v), s);
  }

  /** A run of leading zeros does not change the value of a numeral. */
  lemma {:induction false} LemmaLeadingZerosValue(z: nat, d: string)
    requires AllDigits(d)
    ensures AllDigits(Zeros(z) + d) && DigitsValue(Zeros(z) + d) == DigitsValue(d)
    decreases |d|
  {
    var s := Zeros(z) + d;
    if d == [] {
      assert s == Zeros(z);
      LemmaZerosValue(z);
    } else {
      var n := |d| - 1;
      LemmaLeadingZerosValue(z, d[..n]);
      assert s[..|s| - 1] == Zeros(z) + d[..n];
    }
  }

  function Zeros(z: nat): (s: string)
    ensures |s| == z && AllDigits(s)
  {
    if z == 0 then [] else Zeros(z - 1) + ['0']
  }

  lemma {:induction false} LemmaZerosValue(z: nat)
    ensures DigitsValue(Zeros(z)) == 0
  {
    if z > 0 {
      LemmaZerosValue(z - 1);
      assert Zeros(z)[..z - 1] == Zeros(z - 1);
    }
  }

  /** Leading zeros are accepted and ignored: `007` parses as `7`. */
  lemma LemmaParseLeadingZeros(z: nat, d: string)
    requires |d| > 0 && d[0] != '+'
    ensures ParseU32(Zeros(z) + d) == ParseU32(d)
  {
    if AllDigits(d) {
      LemmaLeadingZerosValue(z, d);
    } else {
      var i :| 0 <= i < |d| && !IsDigit(d[i]);
      var s := Zeros(z) + d;
      assert s[z + i] == d[i];
      assert Unsigned(s) == s by {
        if z > 0 {
          assert s[0] == Zeros(z)[0];
        }
      }
    }
  }

  /** One leading `+` is accepted and ignored: `+5` parses as `5`; a second
      sign, a lone `+` and a `-` are rejected. */
  lemma LemmaParseSign(d: string)
    ensures |d| == 0 || d[0] != '+' ==> ParseU32(['+'] + d) == ParseU32(d)
    ensures ParseU32(['+', '+'] + d) == None
    ensures ParseU32(['-'] + d) == None
  {
    assert (['+'] + d)[1..] == d;
    assert (['+', '+'] + d)[1..] == ['+'] + d;
  }

  /** A numeral whose value does not fit in 32 bits is rejected, even
      though it is well-formed: the parser checks for overflow. */
  lemma LemmaParseOverflow(n: nat)
    requires n >= U32_LIMIT
    ensures ParseU32(Format(n)) == None
  {
    LemmaFormatValue(n);
  }
}

=== FILE: flash.dfy ===
/** The flash guard (`Flash` in src/lib.rs) and the `/camera` request
    handler, as a record of observable effects.

    The guard wraps an optional output line: `on` drives it high and then
    waits a fixed settle delay, `off` drives it low, both do nothing when no
    pin is configured, and dropping the guard always calls `off`. Line-driver
    failures are ignored by the source, so a set is modelled as always
    taking effect. */
module Flash {
  import opened Wrappers
  import opened Ints
  import Decimal

  datatype Level = Low | High

  /** The effects the handler produces, in the order they happen. */
  datatype Event =
    | SetHigh
    | SetLow
    | Delay(ms: nat)
    | Capture
    | Headers(status: nat, headers: seq<(string, string)>)
    | Body(data: seq<byte>)

  /** The settle delay after driving the flash high, in milliseconds. */
  const SETTLE_MS: nat := 5

  /** A guard: the level of its line (None when no flash pin is configured)
      and the effects produced so far. */
  datatype Guard = Guard(line: Option<Level>, trace: seq<Event>)

  predicate IsLineEvent(e: Event)
  {
    e.SetHigh? || e.SetLow? || e.Delay?
  }

  /** The level a line ends at when the events of `trace` are applied to it
      from `start`: the reference the guard's own bookkeeping is checked
      against. */
  function Replay(start: Level, trace: seq<Event>): Level
    decreases |trace|
  {
    if trace == [] then start
    else Step(Replay(start, trace[..|trace| - 1]), trace[|trace| - 1])
  }

  /** The level after one event: only line events move it. */
  function Step(level: Level, e: Event): Level
  {
    match e
    case SetHigh => High
    case SetLow => Low
    case _ => level
  }

  /** `Flash::on`. */
  function On(g: Guard): (g': Guard)
    ensures g.line.None? ==> g' == g
    ensures g.line.Some? ==> g'.line == Some(High)
    ensures g.line.Some? ==> g'.trace == g.trace + [SetHigh, Delay(SETTLE_MS)]
  {
    if g.line.Some? then Guard(Some(High), g.trace + [SetHigh, Delay(SETTLE_MS)]) else g
  }

  /** `Flash::off`. */
  function Off(g: Guard): (g': Guard)
    ensures g.line.None? ==> g' == g
    ensures g.line.Some? ==> g'.line == Some(Low) && g'.trace == g.trace + [SetLow]
  {
    if g.line.Some? then Guard(Some(Low), g.trace + [SetLow]) else g
  }

  /** `Drop for Flash`: whatever state the guard is in, the line ends low. */
  function Drop(g: Guard): (g': Guard)
    ensures g.line.Some? ==> g'.line == Some(Low)
    ensures g.line.None? ==> g' == g
  {
    Off(g)
  }

  /** Switching off twice leaves the line as switching off once. */
  lemma LemmaOffIdempotent(g: Guard)
    ensures Off(Off(g)).line == Off(g).line
  {
  }

  /** Dropping after `on` with no matching `off` still leaves the line low. */
  lemma LemmaDropAfterOn(g: Guard)
    requires g.line.Some?
    ensures Drop(On(g)).line == Some(Low)
    ensures Drop(On(g)).trace == g.trace + [SetHigh, Delay(SETTLE_MS), SetLow]
  {
  }

  lemma {:induction false} LemmaReplayAppend(start: Level, a: seq<Event>, b: seq<Event>)
    ensures Replay(start, a + b) == Replay(Replay(start, a), b)
    decreases |b|
  {
    if b == [] {
      assert a + b == a;
    } else {
      var n := |b| - 1;
      LemmaReplayAppend(start, a, b[..n]);
      assert (a + b)[..|a + b| - 1] == a + b[..n];
    }
  }

  /** The guard's level agrees with its recorded effects: if it did before
      `on`, `off` or a drop, it still does after. */
  lemma LemmaGuardAgreesWithTrace(start: Level, g: Guard)
    requires g.line == Some(Replay(start, g.trace))
    ensures On(g).line == Some(Replay(start, On(g).trace))
    ensures Off(g).line == Some(Replay(start, Off(g).trace))
    ensures Drop(g).line == Some(Replay(start, Drop(g).trace))
  {
    LemmaReplayAppend(start, g.trace, [SetHigh, Delay(SETTLE_MS)]);
    assert [SetHigh, Delay(SETTLE_MS)][..1] == [SetHigh];
    assert [SetHigh][..0] == [];
    LemmaReplayAppend(start, g.trace, [SetLow]);
    assert [SetLow][..0] == [];
  }

  // ---------------------------------------------------------------------
  // The `/camera` handler.

  /** A captured frame: its dimensions and its encoded bytes. */
  datatype Picture = Picture(width: nat, height: nat, data: seq<byte>)

  datatype CameraError =
    | FlashLockFailed  // the flash mutex could not be taken
    | NoPicture        // the camera driver returned no frame
    | SendFailed       // the transport rejected the headers or the body

  /** How far the response got on the transport. */
  datatype Delivery = Delivered | HeadersRejected | BodyRejected

  /** The handler's return value, the flash line's final level and the
      effects in order. */
  datatype CameraRun = CameraRun(result: Result<(), CameraError>, line: Option<Level>, trace: seq<Event>)

  /** The headers of a successful snapshot: a JPEG content type and the
      length of the body in decimal. */
  function SnapshotHeaders(data: seq<byte>): seq<(string, string)>
  {
    [("Content-Type", "image/jpeg"), ("Content-Length", Decimal.Format(|data|))]
  }

  /** The `/camera` handler. `locked` says whether the flash mutex could be
      taken, `line` is the flash line's level beforehand (None without a
      flash pin), `capture` is what the camera driver returned, and
      `delivery` is how the transport behaved. Every exit leaves the guard's
      scope, so each path ends with a drop. */
  function Camera(locked: bool, line: Option<Level>, capture: Option<Picture>, delivery: Delivery): (r: CameraRun)
    ensures !locked ==> r == CameraRun(Failure(FlashLockFailed), line, [])
    ensures locked && line.Some? ==> r.line == Some(Low)
    ensures line.None? ==> r.line.None? && forall i :: 0 <= i < |r.trace| ==> !IsLineEvent(r.trace[i])
    ensures r.result.Success? <==> locked && capture.Some? && delivery == Delivered
    ensures locked && capture.None? ==>
      r.result == Failure(NoPicture) && forall i :: 0 <= i < |r.trace| ==> !r.trace[i].Headers? && !r.trace[i].Body?
    ensures r.result.Success? ==>
      Headers(200, SnapshotHeaders(capture.value.data)) in r.trace && Body(capture.value.data) in r.trace
  {
    if !locked then CameraRun(Failure(FlashLockFailed), line, [])
    else
      var lit := On(Guard(line, []));
      var shot := lit.(trace := lit.trace + [Capture]);
      match capture
      case None =>
        var g := Drop(shot);
        CameraRun(Failure(NoPicture), g.line, g.trace)
      case Some(pic) =>
        var dark := Off(shot);
        var sent :=
          if delivery == HeadersRejected then dark
          else dark.(trace := dark.trace + [Headers(200, SnapshotHeaders(pic.data))]);
        var written :=
          if delivery == Delivered then sent.(trace := sent.trace + [Body(pic.data)]) else sent;
        var g := Drop(written);
        CameraRun(if delivery == Delivered then Success(()) else Failure(SendFailed), g.line, g.trace)
  }

  /** With a flash pin, a successful snapshot produces exactly: flash high,
      settle, capture, flash low, headers, body, and the drop's flash low. */
  lemma LemmaCameraSuccessTrace(line: Level, pic: Picture)
    ensures Camera(true, Some(line), Some(pic), Delivered).trace ==
      [SetHigh, Delay(SETTLE_MS), Capture, SetLow,
       Headers(200, SnapshotHeaders(pic.data)), Body(pic.data), SetLow]
  {
  }

  /** The frame is captured only once the line went high and settled. */
  predicate CapturedAfterSettle(t: seq<Event>)
  {
    forall i :: 0 <= i < |t| && t[i] == Capture ==>
      2 <= i && t[i - 2] == SetHigh && t[i - 1] == Delay(SETTLE_MS)
  }

  /** Headers and body go out only while the line, replayed from `start`, is low. */
  predicate DarkWhileResponding(start: Level, t: seq<Event>)
  {
    forall i :: 0 <= i < |t| && (t[i].Headers? || t[i].Body?) ==> Replay(start, t[..i]) == Low
  }

  /** The effects of `/camera` with a flash pin, on each path. */
  function ExpectedTrace(capture: Option<Picture>, delivery: Delivery): seq<Event>
  {
    var lit := [SetHigh, Delay(SETTLE_MS), Capture];
    match capture
    case None => lit + [SetLow]
    case Some(pic) =>
      var h := Headers(200, SnapshotHeaders(pic.data));
      lit + [SetLow] + match delivery
        case Delivered => [h, Body(pic.data), SetLow]
        case BodyRejected => [h, SetLow]
        case HeadersRejected => [SetLow]
  }

  lemma LemmaCameraTrace(line: Level, capture: Option<Picture>, delivery: Delivery)
    ensures Camera(true, Some(line), capture, delivery).trace == ExpectedTrace(capture, delivery)
  {
  }

  /** The ordering promise of the snapshot, on every path: the frame is
      captured only after the line went high and settled, the response is
      emitted only while the line is low, and the line ends low. */
  lemma LemmaCameraOrdering(line: Level, capture: Option<Picture>, delivery: Delivery)
    ensures var t := Camera(true, Some(line), capture, delivery).trace;
      CapturedAfterSettle(t) && DarkWhileResponding(line, t) && Replay(line, t) == Low
  {
    LemmaCameraTrace(line, capture, delivery);
    LemmaExpectedCapture(capture, delivery);
    LemmaExpectedDark(line, capture, delivery);
  }

  lemma LemmaExpectedCapture(capture: Option<Picture>, delivery: Delivery)
    ensures CapturedAfterSettle(ExpectedTrace(capture, delivery))
  {
    var t := ExpectedTrace(capture, delivery);
    assert forall i :: 3 <= i < |t| ==> t[i] != Capture;
  }

  lemma LemmaExpectedDark(line: Level, capture: Option<Picture>, delivery: Delivery)
    ensures var t := ExpectedTrace(capture, delivery);
      DarkWhileResponding(line, t) && Replay(line, t) == Low
  {
    var t := ExpectedTrace(capture, delivery);
    assert t[3] == SetLow;
    assert forall j :: 3 < j < |t| ==> t[j] != SetHigh;
    assert forall j :: 0 <= j < |t| && (t[j].Headers? || t[j].Body?) ==> 3 < j;
    LemmaLowAfter(line, t, 3);
    assert t[..|t|] == t;
  }

  /** Once the line is set low and never set high again, it stays low. */
  lemma {:induction false} LemmaLowAfter(start: Level, t: seq<Event>, k: nat)
    requires k < |t| && t[k] == SetLow
    requires forall j :: k < j < |t| ==> t[j] != SetHigh
    ensures forall i :: k < i <= |t| ==> Replay(start, t[..i]) == Low
    decreases |t|
  {
    var n := |t| - 1;
    if k < n {
      LemmaLowAfter(start, t[..n], k);
    }
    forall i | k < i <= |t|
      ensures Replay(start, t[..i]) == Low
    {
      if i < |t| {
        assert t[..i] == t[..n][..i];
      } else if k < n {
        assert t[..i][..n] == t[..n][..n];
      }
    }
  }

  /** The Content-Length header reads back, with the firmware's own integer
      parser, as the number of body bytes. */
  lemma LemmaContentLength(data: seq<byte>)
    requires |data| < U32_LIMIT
    ensures SnapshotHeaders(data)[1].0 == "Content-Length"
    ensures Decimal.ParseU32(SnapshotHeaders(data)[1].1) == Some(|data|)
  {
    Decimal.LemmaParseFormat(|data|);
  }
}

=== FILE: ints.dfy ===
/** The fixed-width integer types the firmware stores in its data. Dafny's
    integers are unbounded, so each width is a subset type with its bound. */
module Ints {

  const U8_LIMIT: int := 0x100
  const U32_LIMIT: int := 0x1_0000_0000

  type u8 = x: int | 0 <= x < U8_LIMIT
  type byte = u8
  type u32 = x: int | 0 <= x < U32_LIMIT
}

=== FILE: sdcard.dfy ===
/** The `/sdcard` request handler (`SdmmcHandler::handle` in src/sdmmc.rs).

    The path is the piece of the URI between its first and second `?`. The
    response status is always 200. When the card's lock is taken, the
    handler lists the path as a directory if it opens as one, then - in any
    case - reads it as a file if it opens as one, and writes a not-found
    notice only when neither opened. The card is given as what
    `open_directory` and `open_file` find at each path; the lock outcome is
    a boolean. */
module Sdcard {
  import opened Wrappers
  import opened Ints
  import Split
  import Utf8
  import Seqs

  /** A directory entry: its name, or Undecodable when `entry.name()` fails. */
  datatype DirEntry = Named(name: string) | Undecodable

  /** The card: the entries of each path that opens as a directory, and the
      contents of each path that opens as a file. */
  datatype Card = Card(dirs: map<string, seq<DirEntry>>, files: map<string, seq<byte>>)

  /** One `write_all` call on the response. */
  datatype Write =
    | EntryLine(name: string)  // `{name}\n` for a listed entry
    | FileData(data: seq<byte>)
    | NotFoundNotice
    | LockNotice

  const STATUS_OK: nat := 200
  const NOT_FOUND: string := "File/dir not found\n"
  const NO_ACCESS: string := "Couldn't access sdcard\n"

  datatype Response = Response(status: nat, writes: seq<Write>)

  /** The bytes one write puts on the wire. */
  function WriteBytes(w: Write): seq<byte>
  {
    match w
    case EntryLine(name) => Utf8.Encode(name + "\n")
    case FileData(data) => data
    case NotFoundNotice => Utf8.Encode(NOT_FOUND)
    case LockNotice => Utf8.Encode(NO_ACCESS)
  }

  /** The response body: the writes' bytes, in order. */
  function Body(writes: seq<Write>): seq<byte>
  {
    Seqs.FlatMap(WriteBytes, writes)
  }

  /** `uri.split("?").nth(1).unwrap_or("")`. */
  function QueryPath(uri: string): (path: string)
    ensures '?' !in path
    ensures '?' !in uri ==> path == []
  {
    var parts := Split.Split(uri, '?');
    Split.LemmaCountZero(uri, '?');
    if |parts| > 1 then parts[1] else []
  }

  /** The decodable names among `entries`, in listing order. */
  function Names(entries: seq<DirEntry>): (names: seq<string>)
    ensures forall n :: n in names <==> Named(n) in entries
  {
    if entries == [] then []
    else
      var rest := Names(entries[1..]);
      assert forall e :: e in entries <==> e == entries[0] || e in entries[1..];
      match entries[0]
      case Named(n) => [n] + rest
      case Undecodable => rest
  }

  /** Listing keeps the directory's order and its duplicates: the names of
      two runs of entries are the names of the first, then those of the second. */
  lemma {:induction false} LemmaNamesAppend(a: seq<DirEntry>, b: seq<DirEntry>)
    ensures Names(a + b) == Names(a) + Names(b)
  {
    if a == [] {
      assert a + b == b;
    } else {
      var head := if a[0].Named? then [a[0].name] else [];
      assert (a + b)[0] == a[0];
      assert (a + b)[1..] == a[1..] + b;
      assert Names(a) == head + Names(a[1..]);
      assert Names(a + b) == head + Names(a[1..] + b);
      LemmaNamesAppend(a[1..], b);
    }
  }

  /** A decodable entry contributes its name; an undecodable one nothing. */
  lemma LemmaNamesSingle(e: DirEntry)
    ensures Names([e]) == if e.Named? then [e.name] else []
  {
  }

  /** The names, each followed by a newline. */
  function Lines(names: seq<string>): string
  {
    if names == [] then [] else names[0] + "\n" + Lines(names[1..])
  }

  /** The writes of the directory listing: one line per decodable entry, in
      listing order; undecodable entries are skipped. */
  function ListingWrites(entries: seq<DirEntry>): (writes: seq<Write>)
    ensures |writes| == |Names(entries)|
    ensures forall i :: 0 <= i < |writes| ==> writes[i] == EntryLine(Names(entries)[i])
  {
    if entries == [] then []
    else
      var rest := ListingWrites(entries[1..]);
      match entries[0]
      case Named(n) => [EntryLine(n)] + rest
      case Undecodable => rest
  }

  /** The first closure: whether `path` opened as a directory, and the writes. */
  function ListDirectory(path: string, card: Card): (r: (bool, seq<Write>))
  {
    if path in card.dirs then (true, ListingWrites(card.dirs[path])) else (false, [])
  }

  /** The second closure: whether `path` opened as a file, and the writes. */
  function ReadFile(path: string, card: Card): (r: (bool, seq<Write>))
  {
    if path in card.files then (true, [FileData(card.files[path])]) else (false, [])
  }

  function Handle(uri: string, locked: bool, card: Card): (r: Response)
    ensures r.status == STATUS_OK
    ensures !locked <==> r.writes == [LockNotice]
    ensures locked ==> LockNotice !in r.writes
    ensures var path := QueryPath(uri);
      NotFoundNotice in r.writes <==> locked && path !in card.dirs && path !in card.files
    ensures var path := QueryPath(uri);
      locked && path in card.dirs ==>
        ListingWrites(card.dirs[path]) <= r.writes
    ensures var path := QueryPath(uri);
      locked && path in card.files ==> |r.writes| > 0 && r.writes[|r.writes| - 1] == FileData(card.files[path])
  {
    if !locked then Response(STATUS_OK, [LockNotice])
    else
      var path := QueryPath(uri);
      var (dirWritten, listing) := ListDirectory(path, card);
      var (fileWritten, contents) := ReadFile(path, card);
      var notice := if !dirWritten && !fileWritten then [NotFoundNotice] else [];
      var writes := listing + contents + notice;
      assert forall i :: 0 <= i < |listing| ==> listing[i].EntryLine?;
      assert NotFoundNotice !in listing + contents;
      assert forall i :: 0 <= i < |writes| ==> !writes[i].LockNotice?;
      assert writes != [LockNotice] by {
        if |writes| == 1 { assert !writes[0].LockNotice?; }
      }
      Response(STATUS_OK, writes)
  }

  // ---------------------------------------------------------------------
  // The path.

  /** The path is the text between the first and the second `?`; anything
      after a second `?` is dropped. */
  lemma LemmaQueryPathBetween(before: string, path: string, after: string)
    requires '?' !in before && '?' !in path
    ensures QueryPath(before + ['?'] + path + ['?'] + after) == path
  {
    assert before + ['?'] + path + ['?'] + after == before + ['?'] + (path + ['?'] + after);
    Split.LemmaSplitCons(before, '?', path + ['?'] + after);
    Split.LemmaSplitCons(path, '?', after);
  }

  /** With a single `?`, the path is everything after it. */
  lemma LemmaQueryPathToEnd(before: string, path: string)
    requires '?' !in before && '?' !in path
    ensures QueryPath(before + ['?'] + path) == path
  {
    Split.LemmaSplitCons(before, '?', path);
    Split.LemmaSplitNoSep(path, '?');
  }

  // ---------------------------------------------------------------------
  // The body.

  lemma LemmaBodyAppend(a: seq<Write>, b: seq<Write>)
    ensures Body(a + b) == Body(a) + Body(b)
  {
    Seqs.LemmaFlatMapAppend(WriteBytes, a, b);
  }

  /** The listing on the wire is the UTF-8 encoding of the decodable names,
      each followed by a newline. */
  lemma {:induction false} LemmaListingBody(entries: seq<DirEntry>)
    ensures Body(ListingWrites(entries)) == Utf8.Encode(Lines(Names(entries)))
  {
    if entries != [] {
      var rest := entries[1..];
      LemmaListingBody(rest);
      match entries[0]
      case Undecodable =>
      case Named(n) =>
        assert ListingWrites(entries) == [EntryLine(n)] + ListingWrites(rest);
        LemmaBodyAppend([EntryLine(n)], ListingWrites(rest));
        assert Body([EntryLine(n)]) == Utf8.Encode(n + "\n");
        Utf8.LemmaEncodeAppend(n + "\n", Lines(Names(rest)));
    }
  }

  /** Reading the listing back: split on newlines, it gives the decodable
      names in listing order and one final empty piece, provided no name
      holds a newline. */
  lemma {:induction false} LemmaLinesSplit(names: seq<string>)
    requires forall i :: 0 <= i < |names| ==> '\n' !in names[i]
    ensures Split.Split(Lines(names), '\n') == names + [[]]
  {
    if names != [] {
      LemmaLinesSplit(names[1..]);
      Split.LemmaSplitCons(names[0], '\n', Lines(names[1..]));
      assert names[0] + "\n" + Lines(names[1..]) == names[0] + ['\n'] + Lines(names[1..]);
      assert [names[0]] + (names[1..] + [[]]) == names + [[]];
    }
  }

  /** An empty directory, or one whose names all fail to decode, lists nothing. */
  lemma {:induction false} LemmaNothingToList(entries: seq<DirEntry>)
    requires forall i :: 0 <= i < |entries| ==> entries[i].Undecodable?
    ensures Body(ListingWrites(entries)) == []
  {
    if entries != [] {
      LemmaNothingToList(entries[1..]);
    }
  }

  /** When the lock fails, the body is exactly the access notice. */
  lemma LemmaLockFailedBody(uri: string, card: Card)
    ensures Body(Handle(uri, false, card).writes) == Utf8.Encode(NO_ACCESS)
  {
    assert Handle(uri, false, card).writes == [LockNotice];
    LemmaBodySingle(LockNotice);
    LemmaNoticeBytes();
  }

  lemma LemmaBodySingle(w: Write)
    ensures Body([w]) == WriteBytes(w)
  {
    Seqs.LemmaFlatMapSingle(WriteBytes, w);
  }

  /** A path that opens both ways gets the listing followed by the file. */
  lemma LemmaDirectoryThenFile(uri: string, card: Card)
    requires QueryPath(uri) in card.dirs && QueryPath(uri) in card.files
    ensures Body(Handle(uri, true, card).writes) ==
      Utf8.Encode(Lines(Names(card.dirs[QueryPath(uri)]))) + card.files[QueryPath(uri)]
  {
    var path := QueryPath(uri);
    var listing := ListingWrites(card.dirs[path]);
    LemmaBodyAppend(listing, [FileData(card.files[path])]);
    LemmaBodySingle(FileData(card.files[path]));
    assert listing + [FileData(card.files[path])] + [] == listing + [FileData(card.files[path])];
    LemmaListingBody(card.dirs[path]);
  }

  /** A path that opens only as a directory gets the listing alone. */
  lemma LemmaDirectoryOnly(uri: string, card: Card)
    requires QueryPath(uri) in card.dirs && QueryPath(uri) !in card.files
    ensures Body(Handle(uri, true, card).writes) == Utf8.Encode(Lines(Names(card.dirs[QueryPath(uri)])))
  {
    var path := QueryPath(uri);
    assert Handle(uri, true, card).writes == ListingWrites(card.dirs[path]);
    LemmaListingBody(card.dirs[path]);
  }

  /** A path that opens only as a file gets its bytes alone. */
  lemma LemmaFileOnly(uri: string, card: Card)
    requires QueryPath(uri) !in card.dirs && QueryPath(uri) in card.files
    ensures Body(Handle(uri, true, card).writes) == card.files[QueryPath(uri)]
  {
    var path := QueryPath(uri);
    assert Handle(uri, true, card).writes == [FileData(card.files[path])];
    LemmaBodySingle(FileData(card.files[path]));
  }

  /** A path that opens neither way gets exactly the not-found notice. */
  lemma LemmaNeitherOpened(uri: string, card: Card)
    requires QueryPath(uri) !in card.dirs && QueryPath(uri) !in card.files
    ensures Body(Handle(uri, true, card).writes) == Utf8.Encode(NOT_FOUND)
  {
    assert Handle(uri, true, card).writes == [NotFoundNotice];
    LemmaBodySingle(NotFoundNotice);
    LemmaNoticeBytes();
  }

  lemma LemmaNoticeBytes()
    ensures WriteBytes(LockNotice) == Utf8.Encode(NO_ACCESS)
    ensures WriteBytes(NotFoundNotice) == Utf8.Encode(NOT_FOUND)
  {
  }

  lemma LemmaTwoLines(a: string, b: string)
    ensures Lines(Names([Named(a), Named(b)])) == a + "\n" + b + "\n"
  {
    var entries := [Named(a), Named(b)];
    assert entries[1..] == [Named(b)];
    assert [Named(b)][1..] == [];
    assert Names([Named(b)]) == [b];
    assert Names(entries) == [a] + [b] == [a, b];
    assert [a, b][1..] == [b];
    assert [b][1..] == [];
    assert Lines([b]) == b + "\n";
    assert Lines([a, b]) == a + "\n" + (b + "\n");
  }

  /** `GET <route>?<dir>` on a directory holding two entries `a` and `b`
      (such as `/sdcard?/images` with `a.jpg` and `b.jpg`) answers with the
      two names, one per line. */
  lemma LemmaTwoEntryDirectory(route: string, dir: string, a: string, b: string, card: Card)
    requires '?' !in route && '?' !in dir
    requires card.dirs == map[dir := [Named(a), Named(b)]] && dir !in card.files
    ensures Body(Handle(route + ['?'] + dir, true, card).writes) == Utf8.Encode(a + "\n" + b + "\n")
  {
    var uri := route + ['?'] + dir;
    LemmaQueryPathToEnd(route, dir);
    LemmaDirectoryOnly(uri, card);
    LemmaTwoLines(a, b);
  }
}

=== FILE: seqs.dfy ===
/** Generic operations over sequences: concatenating the images of the
    elements, and finding the first element that yields a value. */
module Seqs {
  import opened Wrappers

  function FlatMap<T, U>(f: T -> seq<U>, s: seq<T>): seq<U>
  {
    if s == [] then [] else f(s[0]) + FlatMap(f, s[1..])
  }

  /** The images of a concatenation are the concatenated images. */
  lemma {:induction false} LemmaFlatMapAppend<T, U>(f: T -> seq<U>, a: seq<T>, b: seq<T>)
    ensures FlatMap(f, a + b) == FlatMap(f, a) + FlatMap(f, b)
  {
    if a == [] {
      assert a + b == b;
    } else {
      assert (a + b)[0] == a[0];
      assert (a + b)[1..] == a[1..] + b;
      var head := f(a[0]);
      assert FlatMap(f, a) == head + FlatMap(f, a[1..]);
      assert FlatMap(f, a + b) == head + FlatMap(f, a[1..] + b);
      LemmaFlatMapAppend(f, a[1..], b);
    }
  }

  lemma LemmaFlatMapSingle<T, U>(f: T -> seq<U>, x: T)
    ensures FlatMap(f, [x]) == f(x)
  {
    assert [x][1..] == [];
    assert FlatMap(f, []) == [];
  }

  /** The first value `f` yields along `s`, trying the elements in order. */
  function FirstSome<T, U>(f: T -> Option<U>, s: seq<T>): Option<U>
  {
    if s == [] then None
    else
      var first := f(s[0]);
      if first.Some? then first else FirstSome(f, s[1..])
  }

  /** The result comes from the first element that yields a value, and
      there is none exactly when no element yields one. */
  lemma {:induction false} LemmaFirstSome<T, U>(f: T -> Option<U>, s: seq<T>)
    ensures FirstSome(f, s).None? <==> forall i :: 0 <= i < |s| ==> f(s[i]).None?
    ensures FirstSome(f, s).Some? ==>
              exists i :: 0 <= i < |s| && f(s[i]) == FirstSome(f, s) &&
                          forall j :: 0 <= j < i ==> f(s[j]).None?
  {
    if s != [] && f(s[0]).None? {
      var tail := s[1..];
      LemmaFirstSome(f, tail);
      assert forall i :: 1 <= i < |s| ==> s[i] == tail[i - 1];
      if FirstSome(f, tail).Some? {
        var k :| 0 <= k < |tail| && f(tail[k]) == FirstSome(f, tail) &&
                 forall j :: 0 <= j < k ==> f(tail[j]).None?;
        assert s[k + 1] == tail[k];
      }
    }
  }

  /** Searching a concatenation searches the second part only when the
      first yields nothing. */
  lemma {:induction false} LemmaFirstSomeAppend<T, U>(f: T -> Option<U>, a: seq<T>, b: seq<T>)
    ensures FirstSome(f, a + b) == if FirstSome(f, a).Some? then FirstSome(f, a) else FirstSome(f, b)
  {
    if a == [] {
      assert a + b == b;
    } else {
      assert (a + b)[0] == a[0];
      assert (a + b)[1..] == a[1..] + b;
      LemmaFirstSomeAppend(f, a[1..], b);
    }
  }
}

=== FILE: split.dfy ===
/** Rust's `str::split` with a one-character pattern, on sequences.
    `Split(s, sep)` yields the pieces between occurrences of `sep`, in order:
    n occurrences give n + 1 pieces, so the empty input gives one empty piece
    and the first piece always exists. `Join` is its inverse. */
module Split {

  /** Number of occurrences of `x` in `s`. */
  function Count<T(==)>(s: seq<T>, x: T): nat
  {
    if s == [] then 0 else (if s[0] == x then 1 else 0) + Count(s[1..], x)
  }

  lemma {:induction false} LemmaCountZero<T>(s: seq<T>, x: T)
    ensures Count(s, x) == 0 <==> x !in s
  {
    if s != [] {
      LemmaCountZero(s[1..], x);
      assert x in s <==> s[0] == x || x in s[1..];
    }
  }

  function Split<T(==)>(s: seq<T>, sep: T): (parts: seq<seq<T>>)
    ensures |parts| == Count(s, sep) + 1
    ensures forall i :: 0 <= i < |parts| ==> sep !in parts[i]
  {
    if s == [] then [[]]
    else
      var rest := Split(s[1..], sep);
      if s[0] == sep then [[]] + rest
      else [[s[0]] + rest[0]] + rest[1..]
  }

  /** The pieces glued back together with `sep` between neighbours. */
  function Join<T>(parts: seq<seq<T>>, sep: T): seq<T>
    requires |parts| > 0
  {
    if |parts| == 1 then parts[0] else parts[0] + [sep] + Join(parts[1..], sep)
  }

  /** Splitting loses nothing: joining the pieces gives back the input. */
  lemma {:induction false} LemmaJoinSplit<T>(s: seq<T>, sep: T)
    ensures Join(Split(s, sep), sep) == s
  {
    if s != [] {
      var rest := Split(s[1..], sep);
      LemmaJoinSplit(s[1..], sep);
      if s[0] == sep {
        assert Split(s, sep)[1..] == rest;
      } else {
        var parts := Split(s, sep);
        if |rest| == 1 {
          assert parts == [[s[0]] + rest[0]];
        } else {
          assert parts[1..] == rest[1..];
          assert Join(rest, sep) == rest[0] + [sep] + Join(rest[1..], sep);
        }
      }
    }
  }

  /** Splitting a separator-free piece followed by a separator: the piece
      comes first, then the pieces of what follows. */
  lemma {:induction false} LemmaSplitCons<T>(a: seq<T>, sep: T, b: seq<T>)
    requires sep !in a
    ensures Split(a + [sep] + b, sep) == [a] + Split(b, sep)
  {
    if a == [] {
      assert a + [sep] + b == [sep] + b;
      assert ([sep] + b)[1..] == b;
    } else {
      var s := a + [sep] + b;
      assert s[1..] == a[1..] + [sep] + b;
      LemmaSplitCons(a[1..], sep, b);
      assert [a[0]] + a[1..] == a;
    }
  }

  /** A separator-free sequence is a single piece. */
  lemma {:induction false} LemmaSplitNoSep<T>(a: seq<T>, sep: T)
    requires sep !in a
    ensures Split(a, sep) == [a]
  {
    if a != [] {
      LemmaSplitNoSep(a[1..], sep);
      assert [a[0]] + a[1..] == a;
    }
  }

  /** Splitting undoes joining, whenever no piece holds the separator. */
  lemma {:induction false} LemmaSplitJoin<T>(parts: seq<seq<T>>, sep: T)
    requires |parts| > 0
    requires forall i :: 0 <= i < |parts| ==> sep !in parts[i]
    ensures Split(Join(parts, sep), sep) == parts
  {
    if |parts| == 1 {
      LemmaSplitNoSep(parts[0], sep);
    } else {
      LemmaSplitJoin(parts[1..], sep);
      LemmaSplitCons(parts[0], sep, Join(parts[1..], sep));
      assert [parts[0]] + parts[1..] == parts;
    }
  }

  /** Splitting distributes over a separator: the pieces of `a + [sep] + b`
      are those of `a` followed by those of `b`. */
  lemma {:induction false} LemmaSplitAppend<T>(a: seq<T>, sep: T, b: seq<T>)
    ensures Split(a + [sep] + b, sep) == Split(a, sep) + Split(b, sep)
  {
    var pa := Split(a, sep);
    var pb := Split(b, sep);
    var parts := pa + pb;
    assert Join(parts, sep) == a + [sep] + b by {
      LemmaJoinSplit(a, sep);
      LemmaJoinSplit(b, sep);
      LemmaJoinAppend(pa, pb, sep);
    }
    forall i | 0 <= i < |parts|
      ensures sep !in parts[i]
    {
      if i < |pa| { assert parts[i] == pa[i]; } else { assert parts[i] == pb[i - |pa|]; }
    }
    LemmaSplitJoin(parts, sep);
  }

  /** Joining two non-empty lists of pieces puts one separator between them. */
  lemma {:induction false} LemmaJoinAppend<T>(p: seq<seq<T>>, q: seq<seq<T>>, sep: T)
    requires |p| > 0 && |q| > 0
    ensures Join(p + q, sep) == Join(p, sep) + [sep] + Join(q, sep)
  {
    if |p| == 1 {
      assert (p + q)[1..] == q;
    } else {
      LemmaJoinAppend(p[1..], q, sep);
      assert (p + q)[1..] == p[1..] + q;
    }
  }
}

=== FILE: unixtime.dfy ===
/** The `unixtime` field scanner of `get_unixtime` (src/lib.rs) and the
    `/time` response built from it.

    The body read from the time service is cut to the first 1024 bytes,
    decoded as UTF-8, split on `,`, and each segment split on `:`. A segment
    yields a timestamp when its key is exactly `"unixtime"` (quotes
    included), it holds exactly one `:`, and its value parses as a u32; the
    first such segment wins. This is a plain text scan, not a JSON parser. */
module Unixtime {
  import opened Wrappers
  import opened Ints
  import Split
  import Decimal
  import Utf8
  import Seqs

  /** The key a segment must carry, quotes included. */
  const KEY: string := "\"unixtime\""

  /** The size of the buffer the response body is read into. */
  const BODY_BUFFER: nat := 1024

  /** One iteration of the scan loop: the timestamp a segment yields, or
      None when the loop would `continue` past it. */
  function FieldValue(segment: string): (r: Option<u32>)
  {
    var kv := Split.Split(segment, ':');
    if kv[0] != KEY then None      // not our key
    else if |kv| < 2 then None     // no value after the key
    else if |kv| > 2 then None     // a second `:`
    else Decimal.ParseU32(kv[1])
  }

  /** The scan loop: the value of the first segment that yields one. */
  function ScanSegments(segments: seq<string>): Option<u32>
  {
    Seqs.FirstSome(FieldValue, segments)
  }

  /** The first segment that yields a timestamp decides the result, and
      there is none exactly when no segment yields one. */
  lemma LemmaScanSegmentsFirst(segments: seq<string>)
    ensures ScanSegments(segments).None? <==> forall i :: 0 <= i < |segments| ==> FieldValue(segments[i]).None?
    ensures ScanSegments(segments).Some? ==>
              exists i :: 0 <= i < |segments| && FieldValue(segments[i]) == ScanSegments(segments) &&
                          forall j :: 0 <= j < i ==> FieldValue(segments[j]).None?
  {
    Seqs.LemmaFirstSome(FieldValue, segments);
  }

  /** The scan over a whole (decoded) body. */
  function ScanUnixtime(body: string): Option<u32>
  {
    ScanSegments(Split.Split(body, ','))
  }

  /** A segment yields `t` exactly when it is the key, one `:`, and a value
      without `:` that parses to `t`. */
  lemma LemmaFieldValueShape(segment: string)
    requires FieldValue(segment).Some?
    ensures exists value :: segment == KEY + [':'] + value && ':' !in value &&
                            Decimal.ParseU32(value) == FieldValue(segment)
  {
    var kv := Split.Split(segment, ':');
    Split.LemmaJoinSplit(segment, ':');
    assert kv == [kv[0], kv[1]];
    assert Split.Join(kv, ':') == KEY + [':'] + Split.Join(kv[1..], ':');
    assert kv[1..] == [kv[1]];
  }

  lemma LemmaFieldValueOfShape(value: string)
    requires ':' !in value
    ensures FieldValue(KEY + [':'] + value) == Decimal.ParseU32(value)
  {
    assert ':' !in KEY;
    Split.LemmaSplitCons(KEY, ':', value);
    Split.LemmaSplitNoSep(value, ':');
  }

  lemma LemmaScanSingle(segment: string)
    ensures ScanSegments([segment]) == FieldValue(segment)
  {
    var f := FieldValue;
    assert [segment][1..] == [];
    assert Seqs.FirstSome(f, []) == None;
    assert f(segment) == FieldValue(segment);
  }

  lemma LemmaScanSegmentsAppend(a: seq<string>, b: seq<string>)
    ensures ScanSegments(a + b) == if ScanSegments(a).Some? then ScanSegments(a) else ScanSegments(b)
  {
    Seqs.LemmaFirstSomeAppend(FieldValue, a, b);
  }

  /** Extra fields are tolerated: a field found before a `,` is found
      whatever follows, and fields without a timestamp before a `,` are
      skipped. */
  lemma LemmaExtraFields(a: string, b: string)
    ensures ScanUnixtime(a).Some? ==> ScanUnixtime(a + [','] + b) == ScanUnixtime(a)
    ensures ScanUnixtime(a).None? ==> ScanUnixtime(a + [','] + b) == ScanUnixtime(b)
  {
    Split.LemmaSplitAppend(a, ',', b);
    LemmaScanSegmentsAppend(Split.Split(a, ','), Split.Split(b, ','));
  }

  /** The segment `"unixtime":<t>` is found for every u32 `t`. */
  lemma LemmaFieldFound(t: u32)
    ensures ScanUnixtime(KEY + [':'] + Decimal.Format(t)) == Some(t)
  {
    var digits := Decimal.Format(t);
    var seg := KEY + [':'] + digits;
    assert ',' !in digits;
    assert ',' !in KEY + [':'];
    Split.LemmaSplitNoSep(seg, ',');
    Decimal.LemmaParseFormat(t);
    LemmaFieldValueOfShape(Decimal.Format(t));
  }

  /** A field among others is found when no field before it yields a
      timestamp, whatever follows it. */
  lemma LemmaFieldAmongOthers(before: string, t: u32, after: string)
    requires ScanUnixtime(before).None?
    ensures ScanUnixtime(before + [','] + (KEY + [':'] + Decimal.Format(t)) + [','] + after) == Some(t)
  {
    var field := KEY + [':'] + Decimal.Format(t);
    assert before + [','] + field + [','] + after == before + [','] + (field + [','] + after);
    LemmaExtraFields(before, field + [','] + after);
    LemmaFieldFound(t);
    LemmaExtraFields(field, after);
  }

  /** A field that opens the object is missed: its segment starts with `{`,
      so its key is never exactly `"unixtime"`. The scan goes on with what
      follows the first `,`. */
  lemma LemmaLeadingFieldMissed(t: u32, rest: string)
    ensures ScanUnixtime(['{'] + KEY + [':'] + Decimal.Format(t) + [','] + rest) == ScanUnixtime(rest)
  {
    var first := ['{'] + KEY + [':'] + Decimal.Format(t);
    assert ',' !in first by {
      assert ',' !in Decimal.Format(t);
      assert ',' !in ['{'] + KEY + [':'];
    }
    Split.LemmaSplitNoSep(first, ',');
    assert FieldValue(first).None? by {
      Split.LemmaSplitCons(['{'] + KEY, ':', Decimal.Format(t));
      assert ':' !in ['{'] + KEY;
      assert first == (['{'] + KEY) + [':'] + Decimal.Format(t);
      assert (['{'] + KEY)[0] != KEY[0];
    }
    LemmaScanSingle(first);
    LemmaExtraFields(first, rest);
  }

  /** A field that closes the object is missed: its value keeps the `}`,
      which the u32 parser rejects. */
  lemma LemmaTrailingFieldMissed(t: u32)
    ensures ScanUnixtime(KEY + [':'] + Decimal.Format(t) + ['}']) == None
  {
    var value := Decimal.Format(t) + ['}'];
    var seg := KEY + [':'] + value;
    assert ',' !in Decimal.Format(t) && ':' !in Decimal.Format(t);
    assert ',' !in seg;
    assert seg == KEY + [':'] + Decimal.Format(t) + ['}'];
    Split.LemmaSplitNoSep(seg, ',');
    LemmaFieldValueOfShape(value);
    LemmaScanSingle(seg);
    assert !Decimal.IsDigit(value[|value| - 1]);
  }

  /** The body `{"unixtime":1700000000,...}` yields nothing: its only
      timestamp opens the object. */
  lemma LemmaObjectOpeningWithField()
    ensures ScanUnixtime(['{'] + KEY + [':'] + Decimal.Format(1700000000) + [','] + "...}") == None
  {
    var rest := "...}";
    LemmaLeadingFieldMissed(1700000000, rest);
    Split.LemmaSplitNoSep(rest, ',');
    Split.LemmaSplitNoSep(rest, ':');
  }

  // ---------------------------------------------------------------------
  // From the response bytes to the `/time` body.

  datatype TimeError =
    | InvalidUtf8   // the first 1024 bytes are not well-formed UTF-8
    | TimeNotFound  // no segment yields a timestamp ("Error getting time")

  /** The part of the response the scanner sees. */
  function Window(response: seq<byte>): (w: seq<byte>)
    ensures |w| <= BODY_BUFFER && w <= response
    ensures |w| == if |response| <= BODY_BUFFER then |response| else BODY_BUFFER
    ensures |response| <= BODY_BUFFER ==> w == response
  {
    if |response| <= BODY_BUFFER then response else response[..BODY_BUFFER]
  }

  function GetUnixtime(response: seq<byte>): (r: Result<u32, TimeError>)
    ensures r == Failure(InvalidUtf8) <==> Utf8.Decode(Window(response)).None?
  {
    match Utf8.Decode(Window(response))
    case None => Failure(InvalidUtf8)
    case Some(text) =>
      match ScanUnixtime(text)
      case Some(t) => Success(t)
      case None => Failure(TimeNotFound)
  }

  /** Only the first 1024 bytes of the response matter. */
  lemma LemmaOnlyWindowMatters(response: seq<byte>, more: seq<byte>)
    requires |response| >= BODY_BUFFER
    ensures GetUnixtime(response + more) == GetUnixtime(response)
  {
    var w1, w2 := Window(response + more), Window(response);
    assert w1 == w2 by {
      assert (response + more)[..BODY_BUFFER] == response[..BODY_BUFFER];
    }
  }

  /** A text that fits the buffer is scanned as it is. */
  lemma LemmaGetUnixtimeOfText(text: string)
    requires |Utf8.Encode(text)| <= BODY_BUFFER
    ensures GetUnixtime(Utf8.Encode(text)) ==
      match ScanUnixtime(text)
      case Some(t) => Success(t)
      case None => Failure(TimeNotFound)
  {
    Utf8.LemmaDecodeEncode(text);
  }

  /** A buffer whose last byte leads a multi-byte character makes the
      whole read fail: a well-formed sequence never ends on a lead byte. */
  lemma LemmaLastByteLead(response: seq<byte>)
    requires |response| >= BODY_BUFFER
    requires 0xC2 <= response[BODY_BUFFER - 1] <= 0xF4
    ensures GetUnixtime(response) == Failure(InvalidUtf8)
  {
    var w := Window(response);
    Utf8.LemmaNoTrailingLead(w);
  }

  /** A character cut in two by the 1024-byte limit makes the whole read
      fail, wherever inside the character the cut falls. */
  lemma LemmaCutCharacterRejected(before: string, c: char, rest: seq<byte>)
    requires |Utf8.Encode(before)| < BODY_BUFFER < |Utf8.Encode(before)| + |Utf8.EncodeChar(c)|
    ensures GetUnixtime(Utf8.Encode(before) + Utf8.EncodeChar(c) + rest) == Failure(InvalidUtf8)
  {
    var pre, e := Utf8.Encode(before), Utf8.EncodeChar(c);
    var k := BODY_BUFFER - |pre|;
    assert Window(pre + e + rest) == pre + e[..k];
    Utf8.LemmaCutCharRejected(c, k);
    Utf8.LemmaDecodePrefixed(before, e[..k]);
  }

  /** Why the `/time` handler fails: the lookup failed, or the transport
      refused the response head or the body (`into_ok_response()?`,
      `write_all(..)?`). */
  datatype TimeReplyError = LookupFailed(cause: TimeError) | SendFailed

  /** `/time`: the body is the timestamp in decimal ASCII. `delivered` says
      whether the transport accepted both the response head and the body. */
  function TimeBody(response: seq<byte>, delivered: bool): (r: Result<seq<byte>, TimeReplyError>)
    ensures r.Success? <==> GetUnixtime(response).Success? && delivered
    ensures GetUnixtime(response).Failure? ==> r == Failure(LookupFailed(GetUnixtime(response).error))
    ensures GetUnixtime(response).Success? && !delivered ==> r == Failure(SendFailed)
    ensures r.Success? ==>
              && Utf8.Decode(r.value).Some?
              && Decimal.ParseU32(Utf8.Decode(r.value).value) == Some(GetUnixtime(response).value)
              && Decimal.Canonical(Utf8.Decode(r.value).value)
  {
    match GetUnixtime(response)
    case Failure(e) => Failure(LookupFailed(e))
    case Success(t) =>
      if !delivered then Failure(SendFailed)
      else
        Utf8.LemmaDecodeEncode(Decimal.Format(t));
        Decimal.LemmaParseFormat(t);
        Success(Utf8.Encode(Decimal.Format(t)))
  }

  /** The `/time` body is exactly the text `format!("{unixtime}")` gives. */
  lemma LemmaTimeBodyText(response: seq<byte>, delivered: bool)
    requires TimeBody(response, delivered).Success?
    ensures Utf8.Decode(TimeBody(response, delivered).value) == Some(Decimal.Format(GetUnixtime(response).value))
  {
    var text := Utf8.Decode(TimeBody(response, delivered).value).value;
    Decimal.LemmaFormatParse(text);
  }
}

=== FILE: utf8.dfy ===
/** UTF-8 as `core::str::from_utf8` checks it: a byte sequence is accepted
    when it is a concatenation of well-formed sequences (Table 3-7 of the
    Unicode Standard, section 3.9; RFC 3629), which rules out overlong forms,
    encoded surrogates and values above U+10FFFF. Dafny's `char` is a Unicode
    scalar value, the same set Rust's `char` ranges over. */
module Utf8 {
  import opened Wrappers
  import opened Ints
  import Seqs

  predicate IsContinuation(b: byte)
  {
    0x80 <= b <= 0xBF
  }

  /** Allowed second byte of a three-byte sequence led by `b0`. */
  predicate SecondOfThree(b0: byte, b1: byte)
  {
    if b0 == 0xE0 then 0xA0 <= b1 <= 0xBF
    else if b0 == 0xED then 0x80 <= b1 <= 0x9F
    else IsContinuation(b1)
  }

  /** Allowed second byte of a four-byte sequence led by `b0`. */
  predicate SecondOfFour(b0: byte, b1: byte)
  {
    if b0 == 0xF0 then 0x90 <= b1 <= 0xBF
    else if b0 == 0xF4 then 0x80 <= b1 <= 0x8F
    else IsContinuation(b1)
  }

  /** The value bits of byte `b` once its marker bits `marker` are removed. */
  function Payload(b: byte, marker: int): int
  {
    b as int - marker
  }

  /** The scalar value encoded at the front of `s` and its byte length, or
      None when the front of `s` is not a well-formed sequence. */
  function DecodeFirst(s: seq<byte>): (r: Option<(char, nat)>)
    requires |s| > 0
    ensures r.Some? ==> 1 <= r.value.1 <= 4 && r.value.1 <= |s|
  {
    var b0 := s[0];
    if b0 < 0x80 then Some((b0 as int as char, 1))
    else if 0xC2 <= b0 <= 0xDF then
      if |s| >= 2 && IsContinuation(s[1])
      then Some(((Payload(b0, 0xC0) * 0x40 + Payload(s[1], 0x80)) as char, 2))
      else None
    else if 0xE0 <= b0 <= 0xEF then
      if |s| >= 3 && SecondOfThree(b0, s[1]) && IsContinuation(s[2])
      then Some(((Payload(b0, 0xE0) * 0x1000 + Payload(s[1], 0x80) * 0x40 + Payload(s[2], 0x80)) as char, 3))
      else None
    else if 0xF0 <= b0 <= 0xF4 then
      if |s| >= 4 && SecondOfFour(b0, s[1]) && IsContinuation(s[2]) && IsContinuation(s[3])
      then Some(((Payload(b0, 0xF0) * 0x40000 + Payload(s[1], 0x80) * 0x1000
                   + Payload(s[2], 0x80) * 0x40 + Payload(s[3], 0x80)) as char, 4))
      else None
    else None
  }

  /** `core::str::from_utf8`: the text, or None when any part is ill-formed
      (including a sequence cut short by the end of the input). */
  function Decode(s: seq<byte>): Option<string>
    decreases |s|
  {
    if s == [] then Some([])
    else
      match DecodeFirst(s)
      case None => None
      case Some((c, n)) =>
        match Decode(s[n..])
        case None => None
        case Some(t) => Some([c] + t)
  }

  /** The UTF-8 encoding of one scalar value (`char::encode_utf8`): the
      value's bits are peeled off six at a time into continuation bytes. */
  function EncodeChar(c: char): (r: seq<byte>)
    ensures 1 <= |r| <= 4
  {
    var v := c as int;
    if v < 0x80 then [v]
    else
      var v1 := v / 0x40;
      if v < 0x800 then [0xC0 + v1, 0x80 + v % 0x40]
      else
        var v2 := v1 / 0x40;
        if v < 0x10000 then [0xE0 + v2, 0x80 + v1 % 0x40, 0x80 + v % 0x40]
        else [0xF0 + v2 / 0x40, 0x80 + v2 % 0x40, 0x80 + v1 % 0x40, 0x80 + v % 0x40]
  }

  /** The bytes of a Rust `&str` (`str::as_bytes`). */
  function Encode(s: string): seq<byte>
  {
    Seqs.FlatMap(EncodeChar, s)
  }

  lemma LemmaDecodeFirstEncodeChar(c: char, rest: seq<byte>)
    ensures DecodeFirst(EncodeChar(c) + rest) == Some((c, |EncodeChar(c)|))
  {
    var v := c as int;
    if v < 0x80 {
    } else if v < 0x800 {
      LemmaDecodeTwo(c, rest);
    } else if v < 0x10000 {
      LemmaDecodeThree(c, rest);
    } else {
      LemmaDecodeFour(c, rest);
    }
  }

  lemma LemmaDecodeTwo(c: char, rest: seq<byte>)
    requires 0x80 <= c as int < 0x800
    ensures DecodeFirst(EncodeChar(c) + rest) == Some((c, 2))
  {
    var v := c as int;
    var v1, f := v / 0x40, v % 0x40;
    assert v == v1 * 0x40 + f;
    var s := EncodeChar(c) + rest;
    assert s[0] == 0xC0 + v1 && s[1] == 0x80 + f;
    assert Payload(s[0], 0xC0) == v1 && Payload(s[1], 0x80) == f;
  }

  lemma LemmaDecodeThree(c: char, rest: seq<byte>)
    requires 0x800 <= c as int < 0x10000
    ensures DecodeFirst(EncodeChar(c) + rest) == Some((c, 3))
  {
    var v := c as int;
    var v1, f := v / 0x40, v % 0x40;
    var v2, d := v1 / 0x40, v1 % 0x40;
    assert v == v1 * 0x40 + f;
    assert v1 == v2 * 0x40 + d;
    assert v == v2 * 0x1000 + d * 0x40 + f;
    var s := EncodeChar(c) + rest;
    assert s[0] == 0xE0 + v2 && s[1] == 0x80 + d && s[2] == 0x80 + f;
    assert SecondOfThree(s[0], s[1]);
    assert Payload(s[0], 0xE0) == v2 && Payload(s[1], 0x80) == d && Payload(s[2], 0x80) == f;
  }

  lemma LemmaDecodeFour(c: char, rest: seq<byte>)
    requires 0x10000 <= c as int
    ensures DecodeFirst(EncodeChar(c) + rest) == Some((c, 4))
  {
    var v := c as int;
    var v1, f := v / 0x40, v % 0x40;
    var v2, d := v1 / 0x40, v1 % 0x40;
    var a, b := v2 / 0x40, v2 % 0x40;
    assert v == v1 * 0x40 + f;
    assert v1 == v2 * 0x40 + d;
    assert v2 == a * 0x40 + b;
    assert v == a * 0x40000 + b * 0x1000 + d * 0x40 + f;
    assert a <= 4 && (a == 0 ==> b >= 0x10) && (a == 4 ==> b < 0x10);
    var s := EncodeChar(c) + rest;
    assert s[0] == 0xF0 + a && s[1] == 0x80 + b && s[2] == 0x80 + d && s[3] == 0x80 + f;
    assert SecondOfFour(s[0], s[1]);
    assert Payload(s[0], 0xF0) == a && Payload(s[1], 0x80) == b;
    assert Payload(s[2], 0x80) == d && Payload(s[3], 0x80) == f;
  }

  lemma LemmaEncodeCharDecodeFirst(s: seq<byte>)
    requires |s| > 0 && DecodeFirst(s).Some?
    ensures EncodeChar(DecodeFirst(s).value.0) == s[..DecodeFirst(s).value.1]
  {
    var b0 := s[0];
    if 0xC2 <= b0 <= 0xDF {
      LemmaEncodeTwo(s);
    } else if 0xE0 <= b0 <= 0xEF {
      LemmaEncodeThree(s);
    } else if 0xF0 <= b0 <= 0xF4 {
      LemmaEncodeFour(s);
    }
  }

  lemma LemmaEncodeTwo(s: seq<byte>)
    requires |s| > 0 && 0xC2 <= s[0] <= 0xDF && DecodeFirst(s).Some?
    ensures DecodeFirst(s).value.1 == 2
    ensures EncodeChar(DecodeFirst(s).value.0) == s[..2]
  {
    LemmaTwo(Payload(s[0], 0xC0), Payload(s[1], 0x80));
  }

  lemma LemmaEncodeThree(s: seq<byte>)
    requires |s| > 0 && 0xE0 <= s[0] <= 0xEF && DecodeFirst(s).Some?
    ensures DecodeFirst(s).value.1 == 3
    ensures EncodeChar(DecodeFirst(s).value.0) == s[..3]
  {
    LemmaThree(Payload(s[0], 0xE0), Payload(s[1], 0x80), Payload(s[2], 0x80));
  }

  lemma LemmaEncodeFour(s: seq<byte>)
    requires |s| > 0 && 0xF0 <= s[0] <= 0xF4 && DecodeFirst(s).Some?
    ensures DecodeFirst(s).value.1 == 4
    ensures EncodeChar(DecodeFirst(s).value.0) == s[..4]
  {
    LemmaFour(Payload(s[0], 0xF0), Payload(s[1], 0x80), Payload(s[2], 0x80), Payload(s[3], 0x80));
  }

  lemma LemmaTwo(q: int, r: int)
    requires 0 <= r < 0x40 && 0 <= q
    ensures (q * 0x40 + r) / 0x40 == q && (q * 0x40 + r) % 0x40 == r
  {
  }

  lemma LemmaThree(a: int, b: int, c: int)
    requires 0 <= a && 0 <= b < 0x40 && 0 <= c < 0x40
    ensures var v := a * 0x1000 + b * 0x40 + c;
      v / 0x40 / 0x40 == a && (v / 0x40) % 0x40 == b && v % 0x40 == c
  {
    var v := a * 0x1000 + b * 0x40 + c;
    assert v == (a * 0x40 + b) * 0x40 + c;
    LemmaTwo(a * 0x40 + b, c);
    LemmaTwo(a, b);
  }

  lemma LemmaFour(a: int, b: int, c: int, d: int)
    requires 0 <= a && 0 <= b < 0x40 && 0 <= c < 0x40 && 0 <= d < 0x40
    ensures var v := a * 0x40000 + b * 0x1000 + c * 0x40 + d;
      v / 0x40 / 0x40 / 0x40 == a && (v / 0x40 / 0x40) % 0x40 == b && (v / 0x40) % 0x40 == c && v % 0x40 == d
  {
    var v := a * 0x40000 + b * 0x1000 + c * 0x40 + d;
    assert v == (a * 0x40 + b) * 0x1000 + c * 0x40 + d;
    LemmaThree(a * 0x40 + b, c, d);
    LemmaTwo(a, b);
  }

  /** Encoding then decoding gives the text back: every Rust string is
      accepted by `from_utf8` as itself. */
  lemma {:induction false} LemmaDecodeEncode(t: string)
    ensures Decode(Encode(t)) == Some(t)
  {
    if t != [] {
      var e := EncodeChar(t[0]);
      LemmaDecodeFirstEncodeChar(t[0], Encode(t[1..]));
      LemmaDecodeEncode(t[1..]);
      assert Encode(t) == e + Encode(t[1..]);
      assert (e + Encode(t[1..]))[|e|..] == Encode(t[1..]);
      assert [t[0]] + t[1..] == t;
    }
  }

  /** Decoding then encoding gives the bytes back: `from_utf8` accepts a
      byte sequence only when it is the encoding of the text it returns. */
  lemma {:induction false} LemmaEncodeDecode(s: seq<byte>)
    requires Decode(s).Some?
    ensures Encode(Decode(s).value) == s
    decreases |s|
  {
    if s != [] {
      var (c, n) := DecodeFirst(s).value;
      LemmaEncodeCharDecodeFirst(s);
      LemmaEncodeDecode(s[n..]);
      var t := Decode(s).value;
      assert t[1..] == Decode(s[n..]).value;
      assert s == s[..n] + s[n..];
    }
  }

  lemma LemmaEncodeAppend(a: string, b: string)
    ensures Encode(a + b) == Encode(a) + Encode(b)
  {
    Seqs.LemmaFlatMapAppend(EncodeChar, a, b);
  }

  /** A well-formed sequence never ends on a lead byte, so a character cut
      short by the end of the input is rejected. */
  lemma {:induction false} LemmaNoTrailingLead(s: seq<byte>)
    requires |s| > 0 && 0xC2 <= s[|s| - 1] <= 0xF4
    ensures Decode(s).None?
    decreases |s|
  {
    match DecodeFirst(s)
    case None =>
    case Some((c, n)) =>
      if n < |s| {
        LemmaNoTrailingLead(s[n..]);
      }
  }

  /** A character cut short is rejected: every proper, non-empty prefix of
      a multi-byte encoding is ill-formed. */
  lemma LemmaCutCharRejected(c: char, k: nat)
    requires 0 < k < |EncodeChar(c)|
    ensures Decode(EncodeChar(c)[..k]).None?
  {
    var e := EncodeChar(c);
    LemmaDecodeFirstEncodeChar(c, []);
    assert e + [] == e;
    assert e[..k][0] == e[0];
  }

  /** Well-formed text in front of ill-formed bytes does not save them. */
  lemma {:induction false} LemmaDecodePrefixed(a: string, p: seq<byte>)
    requires Decode(p).None?
    ensures Decode(Encode(a) + p).None?
  {
    if a == [] {
      assert Encode(a) + p == p;
    } else {
      var e := EncodeChar(a[0]);
      var tail := Encode(a[1..]) + p;
      LemmaDecodePrefixed(a[1..], p);
      assert Encode(a) + p == e + tail;
      LemmaDecodeFirstEncodeChar(a[0], tail);
      assert (e + tail)[|e|..] == tail;
    }
  }
}

=== FILE: wifi.dfy ===
/** Wi-Fi bring-up (`init_wifi` in src/lib.rs): choosing the channel from
    the scan results, building the mixed client + access-point
    configuration, and the two bounded waits. The radio itself is not
    modelled; each wait is given the values its condition took at the polls
    made within the timeout window. */
module Wifi {
  import opened Wrappers
  import opened Ints

  /** One scan result: the network's name and the channel it was seen on. */
  datatype AccessPointInfo = AccessPointInfo(ssid: string, channel: u8)

  datatype Ipv4 = Ipv4(a: u8, b: u8, c: u8, d: u8)

  /** 0.0.0.0, the address the station has before a DHCP lease. */
  const UNSPECIFIED: Ipv4 := Ipv4(0, 0, 0, 0)

  /** The name of the device's own access point. */
  const AP_SSID: string := "aptest"

  /** The access point's channel when the configured network was not seen. */
  const AP_FALLBACK_CHANNEL: u8 := 1

  datatype ClientConfiguration = ClientConfiguration(ssid: string, password: string, channel: Option<u8>)
  datatype AccessPointConfiguration = AccessPointConfiguration(ssid: string, channel: u8)
  datatype MixedConfiguration = MixedConfiguration(client: ClientConfiguration, ap: AccessPointConfiguration)

  /** `Iterator::find` over the scan results for the configured SSID. */
  function FindNetwork(scan: seq<AccessPointInfo>, ssid: string): (r: Option<AccessPointInfo>)
    ensures r.Some? ==> r.value in scan && r.value.ssid == ssid
    ensures r.None? ==> forall i :: 0 <= i < |scan| ==> scan[i].ssid != ssid
  {
    if scan == [] then None
    else if scan[0].ssid == ssid then Some(scan[0])
    else FindNetwork(scan[1..], ssid)
  }

  /** The client channel: that of the configured network if the scan saw it. */
  function ClientChannel(scan: seq<AccessPointInfo>, ssid: string): (ch: Option<u8>)
    ensures ch.None? <==> forall i :: 0 <= i < |scan| ==> scan[i].ssid != ssid
  {
    match FindNetwork(scan, ssid)
    case Some(ours) => Some(ours.channel)
    case None => None
  }

  /** The configuration handed to the radio. */
  function Configure(scan: seq<AccessPointInfo>, ssid: string, password: string): (cfg: MixedConfiguration)
    ensures cfg.client.ssid == ssid && cfg.client.password == password
    ensures cfg.ap.ssid == AP_SSID
    ensures cfg.client.channel == ClientChannel(scan, ssid)
    ensures cfg.client.channel.Some? ==> cfg.ap.channel == cfg.client.channel.value
    ensures cfg.client.channel.None? <==> cfg.ap.channel == AP_FALLBACK_CHANNEL && forall i :: 0 <= i < |scan| ==> scan[i].ssid != ssid
  {
    var channel := ClientChannel(scan, ssid);
    MixedConfiguration(
      ClientConfiguration(ssid, password, channel),
      AccessPointConfiguration(AP_SSID, channel.UnwrapOr(AP_FALLBACK_CHANNEL)))
  }

  /** The client channel is the channel of the FIRST scan entry carrying the
      configured SSID: every earlier entry carries another name. */
  lemma {:induction false} LemmaFirstMatch(scan: seq<AccessPointInfo>, ssid: string)
    requires ClientChannel(scan, ssid).Some?
    ensures exists i :: 0 <= i < |scan| && scan[i].ssid == ssid &&
              scan[i].channel == ClientChannel(scan, ssid).value &&
              forall j :: 0 <= j < i ==> scan[j].ssid != ssid
  {
    if scan[0].ssid != ssid {
      LemmaFirstMatch(scan[1..], ssid);
      var i :| 0 <= i < |scan[1..]| && scan[1..][i].ssid == ssid
        && scan[1..][i].channel == ClientChannel(scan[1..], ssid).value
        && forall j :: 0 <= j < i ==> scan[1..][j].ssid != ssid;
      assert scan[i + 1] == scan[1..][i];
    } else {
      assert scan[0].ssid == ssid;
    }
  }

  /** Conversely, an entry carrying the SSID with none before it decides
      the client channel. */
  lemma {:induction false} LemmaFirstMatchDecides(scan: seq<AccessPointInfo>, ssid: string, i: nat)
    requires i < |scan| && scan[i].ssid == ssid
    requires forall j :: 0 <= j < i ==> scan[j].ssid != ssid
    ensures ClientChannel(scan, ssid) == Some(scan[i].channel)
  {
    if i > 0 {
      LemmaFirstMatchDecides(scan[1..], ssid, i - 1);
    }
  }

  /** Both halves of the configuration use the channel of the first scan
      entry carrying the configured SSID. */
  lemma LemmaConfigureFirstMatch(scan: seq<AccessPointInfo>, ssid: string, password: string, i: nat)
    requires i < |scan| && scan[i].ssid == ssid
    requires forall j :: 0 <= j < i ==> scan[j].ssid != ssid
    ensures Configure(scan, ssid, password).client.channel == Some(scan[i].channel)
    ensures Configure(scan, ssid, password).ap.channel == scan[i].channel
  {
    LemmaFirstMatchDecides(scan, ssid, i);
  }

  /** The station is usable only when connected AND holding a non-zero address. */
  predicate StationReady(connected: bool, ip: Ipv4)
  {
    connected && ip != UNSPECIFIED
  }

  /** A poll of the station: whether the link is up and the address it holds. */
  datatype StationPoll = StationPoll(connected: bool, ip: Ipv4)

  /** The two `bail!` timeouts, and a failed final read of the station's
      address (`get_ip_info()?` after the connect wait). */
  datatype BringupError = StartTimeout | ConnectTimeout | IpInfoFailed

  /** A bounded wait: it succeeds as soon as one poll sees the condition. */
  function Wait(polls: seq<bool>): (ok: bool)
    ensures ok <==> exists i :: 0 <= i < |polls| && polls[i]
  {
    if polls == [] then false else polls[0] || Wait(polls[1..])
  }

  /** The connect wait's condition at each station poll. */
  function Readiness(station: seq<StationPoll>): (polls: seq<bool>)
    ensures |polls| == |station|
    ensures forall k :: 0 <= k < |station| ==> polls[k] == StationReady(station[k].connected, station[k].ip)
  {
    seq(|station|, k requires 0 <= k < |station| => StationReady(station[k].connected, station[k].ip))
  }

  /** Bring-up after the scan: configure, wait up to 20 seconds for the radio
      to start, then up to 20 seconds for the station to be ready, then read
      the station's address once more. `started` holds the polls of
      `is_started`, `station` those of the station state, and `ipInfo`
      whether the final address read succeeded. */
  function Bringup(scan: seq<AccessPointInfo>, ssid: string, password: string,
                   started: seq<bool>, station: seq<StationPoll>, ipInfo: bool): (r: Result<MixedConfiguration, BringupError>)
    ensures r == Failure(StartTimeout) <==> forall i :: 0 <= i < |started| ==> !started[i]
    ensures r == Failure(ConnectTimeout) <==>
      (exists i :: 0 <= i < |started| && started[i])
      && forall k :: 0 <= k < |station| ==> !StationReady(station[k].connected, station[k].ip)
    ensures r == Failure(IpInfoFailed) <==>
      (exists i :: 0 <= i < |started| && started[i])
      && (exists k :: 0 <= k < |station| && StationReady(station[k].connected, station[k].ip))
      && !ipInfo
    ensures r.Success? ==> ipInfo && r.value.client.channel == ClientChannel(scan, ssid)
  {
    var cfg := Configure(scan, ssid, password);
    if !Wait(started) then Failure(StartTimeout)
    else if !Wait(Readiness(station)) then Failure(ConnectTimeout)
    else if !ipInfo then Failure(IpInfoFailed)
    else Success(cfg)
  }
}

=== FILE: wrappers.dfy ===
/** Option and Result, the two failure-carrying shapes the firmware uses
    (Rust's `Option<T>` and `Result<T, E>`). */
module Wrappers {

  datatype Option<+T> = None | Some(value: T) {

    /** Rust's `unwrap_or`: the carried value, or `default` when absent. */
    function UnwrapOr(default: T): T
    {
      match this
      case Some(v) => v
      case None => default
    }
  }

  datatype Result<+R, +E> = Success(value: R) | Failure(error: E)
}
